=== FILE: README.md ===
# Bank ledger and Java tutorial helpers, modelled in Dafny

This project models the core of a Java teaching repository that contrasts PHP and Java idioms.

The main part is the bank-account ledger of `ExceptionHandlingExample.java`. It covers:

- the validating `ContaBancaria` constructor;
- withdrawal (`sacar`) and deposit (`depositar`);
- the simulated statement save (`salvarExtrato`);
- the `ServicoBancario` operations: `criarConta`, `transferir` and the batch report `gerarRelatorio`.

The three exception classes become the variants of one `Failure` datatype:

- `Invalid(field, value, message)` for `UsuarioInvalidoException`;
- `Insufficient(current, attempted)` for `SaldoInsuficienteException`;
- `Io(name)` for `IOException`.

Accounts are immutable values. Each operation returns the account as it is after the call. A transfer returns both accounts and a `Status`. That way the deposit failure that leaves the source already debited can be seen and proved. Balances are `real`: the source's `double` is only added, subtracted and compared.

The smaller helpers are modelled too:

- the integer and array helpers of `MethodsBasics.java`;
- the validation, level classifier and list repository of `OOPAdvancedExample.java`;
- the two day-of-week functions of `Utils/Functions.java`.

Files:

- `java_lang.dfy` (module `JavaLang`): the Java semantics the models share.
  - `int32` and the explicit 32-bit wrap `Wrap32`.
  - Java's truncating `%` (`JavaRem`).
  - Nullable strings (`JString`).
  - `trim().isEmpty()` (`IsBlank`).
  - ASCII case mapping.
  - `%d` rendering, with a proved decimal round trip.
- `bank.dfy` (module `Bank`): the ledger.
- `methods_basics.dfy` (module `MethodsBasics`).
- `people.dfy` (module `People`).
- `days.dfy` (module `Days`).

The failing field names and edge cases follow the Java code:

- The failing field names are `"titular"`, `"saldoInicial"` and `"valor"`.
- A negative withdrawal amount is accepted and raises the balance.
- A transfer of a non-positive amount therefore debits the source (by a non-positive amount) before the deposit refuses it.

## Model

| member | source | states |
|---|---|---|
| Bank.NewAccount | src/ExceptionHandlingExample.java:70-81 | an account is built exactly when the owner is non-null and non-blank and the balance is non-negative; the owner check runs first (field `titular`, carrying the owner), then the balance check (field `saldoInicial`, carrying the amount); on success both arguments are stored as given and the account satisfies the ledger invariant |
| Bank.ConstructionScenario | src/ExceptionHandlingExample.java:72-77 | an empty, blank or null owner is reported as `titular` even with a negative balance; a negative balance with a valid owner is `saldoInicial`; a zero balance is accepted |
| Bank.CreateAccount | src/ExceptionHandlingExample.java:123-126 | account creation fails only with a validation failure, exactly for a missing/blank owner or a negative balance, and otherwise yields a valid account holding the arguments |
| Bank.Withdraw | src/ExceptionHandlingExample.java:83-88 | fails exactly when the amount exceeds the balance, carrying the balance before the call and the amount; otherwise the owner is kept and balance plus amount equals the old balance; a valid account stays valid |
| Bank.WithdrawWholeBalance | src/ExceptionHandlingExample.java:84-87 | withdrawing exactly the balance succeeds and leaves 0 |
| Bank.Deposit | src/ExceptionHandlingExample.java:91-97 | fails exactly for an amount <= 0 with field `valor` and the amount; otherwise the balance rises by exactly the amount and validity is kept |
| Bank.MutatorsPreserveValid | src/ExceptionHandlingExample.java:83-97 | from a valid account, every successful withdrawal or deposit yields a valid account, and a refused withdrawal implies a positive amount |
| Bank.DepositThenWithdraw | src/ExceptionHandlingExample.java:83-97 | on a valid account, depositing a positive amount and withdrawing it again restores the account |
| Bank.SaveStatement | src/ExceptionHandlingExample.java:100-108 | the simulated save fails with an I/O failure naming the file exactly when the name contains `*` |
| Bank.TransferFunds | src/ExceptionHandlingExample.java:131-144 | a refused withdrawal leaves both accounts unchanged; a withdrawal that succeeds with a non-positive amount leaves the source debited, the destination untouched and a `valor` failure; the transfer completes exactly for 0 < amount <= source balance, moving exactly the amount; owners never change and validity of both is kept |
| Bank.TransferConservesTotal | src/ExceptionHandlingExample.java:138-141 | a completed transfer leaves the sum of the two balances unchanged |
| Bank.TransferFailureIsAtomicOnWithdraw | src/ExceptionHandlingExample.java:137-138 | when the withdrawal is refused, neither account changes |
| Bank.TransferNonPositive | src/ExceptionHandlingExample.java:138-141 | from a valid source a non-positive amount is always withdrawn, the deposit always refuses it, and nothing is rolled back |
| Bank.TransferScenario | src/ExceptionHandlingExample.java:255-263 | Pedro (300) pays Ana (200) 100, giving 200/300; a second transfer of 500 is refused with balance 200 and changes nothing |
| Bank.StatementName | src/ExceptionHandlingExample.java:161 | the derived name is `extrato_`, then the owner lower-cased character by character, then `.txt` |
| Bank.StatementNameStar | src/ExceptionHandlingExample.java:161-162 | the derived name `extrato_<lower owner>.txt` contains `*` exactly when the owner does |
| Bank.ReportEntry | src/ExceptionHandlingExample.java:156-165 | an entry always carries the owner, the balance and the file name derived from the owner, and its save fails, with an I/O failure naming that file, exactly when the owner contains `*` |
| Bank.GenerateReport | src/ExceptionHandlingExample.java:149-171 | the report has one entry per account, in input order, with owner, balance and derived file name, and an entry is marked failed exactly when its owner contains `*`; an I/O failure never stops the batch |
| Bank.ReportScenario | src/ExceptionHandlingExample.java:294-298 | in the demonstration batch only `Cliente*Inválido` fails to save |
| MethodsBasics.IsEven | src/fundamentals/examples/MethodsBasics.java:94-96 | Java's `n % 2 == 0` holds exactly for even numbers, negative ones included |
| MethodsBasics.SquareArea | src/fundamentals/examples/MethodsBasics.java:180-182 | the result agrees with side² modulo 2^32 and equals it when it fits an `int` |
| MethodsBasics.SquareFitsBelow46341 | src/fundamentals/examples/MethodsBasics.java:180-182 | side² fits an `int` exactly for sides in -46340..46340 |
| MethodsBasics.RectangleArea | src/fundamentals/examples/MethodsBasics.java:187-189 | the result agrees with width·height modulo 2^32 and equals it when it fits an `int` |
| MethodsBasics.SquareIsRectangle | src/fundamentals/examples/MethodsBasics.java:180-189 | the one-argument overload equals the two-argument one with equal sides |
| MethodsBasics.Pad2 | src/fundamentals/examples/MethodsBasics.java:201-203 | `%02d` yields at least two characters; a non-negative number becomes digits only that read back as the number, exactly two of them below 100 and as many as its decimal rendering from 10 on; a negative number is a minus sign followed by the digits of its magnitude |
| MethodsBasics.FormatDate | src/fundamentals/examples/MethodsBasics.java:201-203 | for every argument, negative or of three or more digits included, splitting the text at its slashes gives the `%02d` renderings of day and month and the `%d` rendering of the year; for day and month in 0..99 the text starts `dd/mm/` (digits at positions 0, 1, 3 and 4, slashes at 2 and 5), and with a non-negative year the rest is exactly the year's decimal digits |
| MethodsBasics.FormatDateRoundTrip | src/fundamentals/examples/MethodsBasics.java:201-203 | for non-negative day, month and year, reading `dd/mm/yyyy` back gives the three numbers |
| MethodsBasics.FormatDateLong | src/fundamentals/examples/MethodsBasics.java:208-216 | without the flag it is the three-argument form; with it, it throws an index error exactly for a month outside 1..12 (at index month-1), and otherwise uses the month's abbreviation |
| MethodsBasics.FindLargest | src/fundamentals/examples/MethodsBasics.java:251-261 | 0 for an empty array; otherwise an element of the array that is >= every element |
| MethodsBasics.FindSmallest | src/fundamentals/examples/MethodsBasics.java:266-276 | 0 for an empty array; otherwise an element of the array that is <= every element |
| MethodsBasics.SortedCopy | src/fundamentals/examples/MethodsBasics.java:294-298 | the result is ascending and a permutation of the input (same multiset, same length) |
| MethodsBasics.Insert | src/fundamentals/examples/MethodsBasics.java:296 | inserting into an ascending sequence keeps it ascending and adds exactly one occurrence of the element |
| MethodsBasics.CountEvensPass | src/fundamentals/examples/MethodsBasics.java:305-310 | the counting loop ends with the number of even elements, which is the length of the reference filter |
| MethodsBasics.FillEvens | src/fundamentals/examples/MethodsBasics.java:313-319 | given an array sized by that count, the filling loop produces exactly the reference filter of even elements, in order |
| MethodsBasics.FilterEvens | src/fundamentals/examples/MethodsBasics.java:303-322 | the two-pass filter returns the reference filter of even elements in order, and its length is the count of the first pass |
| MethodsBasics.EvensMembership | src/fundamentals/examples/MethodsBasics.java:303-322 | a value is in the filtered result exactly when it is in the input and even |
| MethodsBasics.CountEvens | src/fundamentals/examples/MethodsBasics.java:304-310 | the first pass's count never exceeds the array length, and is zero exactly when no element is even |
| MethodsBasics.CountEvensIsLength | src/fundamentals/examples/MethodsBasics.java:304-313 | the first pass's count is the length of the filtered result |
| MethodsBasics.ScaleByTen | src/fundamentals/examples/MethodsBasics.java:363-368 | every element becomes its old value times 10, wrapped to 32 bits |
| MethodsBasics.IndexOfBest | src/fundamentals/examples/MethodsBasics.java:522-530 | 0 for fewer than two values; otherwise an index holding a maximum, with every earlier value strictly smaller (the first maximum) |
| MethodsBasics.IndexOfWorst | src/fundamentals/examples/MethodsBasics.java:532-540 | 0 for fewer than two values; otherwise an index holding a minimum, with every earlier value strictly larger (the first minimum) |
| People.BaseValid | src/OOPAdvancedExample.java:70-74 | `Pessoa.isValid`: a non-null, non-blank name, an age strictly between 0 and 120, and a non-null e-mail containing `@` |
| People.IsValid | src/OOPAdvancedExample.java:136-140 | `isValid` dispatched on the class: a developer needs the base rules plus a non-blank language, experience >= 0 and salary > 0; a manager inherits the base rules unchanged |
| People.ValidityRules | src/OOPAdvancedExample.java:136-140 | a valid person of either kind satisfies every rule of `Pessoa`: the developer's override only adds rules on top of `super.isValid()` |
| People.AgeBoundaries | src/OOPAdvancedExample.java:70-74 | with name and e-mail in order, ages 1 and 119 pass and 0 and 120 fail |
| People.ValidationMessage | src/OOPAdvancedExample.java:77-82 | the success text exactly for a valid person, the error text exactly for an invalid one |
| People.Level | src/OOPAdvancedExample.java:123-127 | always one of Junior/Pleno/Senior; Junior exactly below 2 years, Senior exactly from 5 years |
| People.LevelMonotone | src/OOPAdvancedExample.java:123-127 | more experience never gives a lower level |
| People.Save | src/OOPAdvancedExample.java:189-197 | a valid person is appended at the end; an invalid one leaves the repository unchanged; a repository of valid people stays so |
| People.FindById | src/OOPAdvancedExample.java:200-207 | ids 1..size give the id-th saved person, ids above the size give null, ids from -2^31 to 0 throw, and anything found is a stored person |
| People.FindByIdNegativeAlias | src/OOPAdvancedExample.java:203-204 | id 1 - 2^32 finds the first person, through the truncating `intValue()` |
| People.FindByIdChecked | src/OOPAdvancedExample.java:200-207 | the intended lookup: ids 1..size give the id-th person, ids above the size give null, and every non-positive id is refused |
| People.FindByIdAgreement | src/OOPAdvancedExample.java:200-207 | for ids from -2^31 on, the lookup as written and the intended one agree on finding, on what they find and on null |
| People.SaveThenFind | src/OOPAdvancedExample.java:189-206 | after saving a valid person, looking up the new size finds that person |
| People.Delete | src/OOPAdvancedExample.java:210-214 | the stored list is unchanged |
| People.FindAll | src/OOPAdvancedExample.java:217-220 | the copy has the stored people at the same positions |
| People.DevelopersSpeaking | src/OOPAdvancedExample.java:224-228 | every result is a developer whose language matches ignoring case and is in the input; every such input element is in the result |
| People.DevelopersSpeakingAppend | src/OOPAdvancedExample.java:224-228 | filtering a concatenation concatenates the filtered parts, so insertion order is kept |
| People.FindDevelopersByLanguage | src/OOPAdvancedExample.java:222-229 | every result is a stored developer, and a stored person is in the result exactly when it is a developer whose language matches |
| People.SaveThenQuery | src/OOPAdvancedExample.java:189-229 | a query after a save is the earlier query followed by the new person when it was stored and matches |
| People.StoredDevelopersHaveLanguage | src/OOPAdvancedExample.java:227 | in a repository of valid people no developer has a null language, so the filter never dereferences null |
| Days.SundayFirstName | src/Utils/Functions.java:21-30 | the switch of `getTipoDia`: 1..7 name Sunday to Saturday, which is the ISO name list rotated by one day; every other value gives the invalid text |
| Days.DayType | src/Utils/Functions.java:19-31 | ISO days 1..7 get Monday..Sunday in ISO order; the invalid text is returned exactly for negative numbers not divisible by 7 |
| Days.DayTypeInjective | src/Utils/Functions.java:20-30 | distinct ISO days get distinct names, never the invalid text |
| Days.DayTypeWeekly | src/Utils/Functions.java:20 | for non-negative numbers only the value modulo 7 matters |
| Days.IsWorkday | src/Utils/Functions.java:11-17 | true exactly for the raw values 2..6 |
| Days.IsWorkdayUsesSundayFirst | src/Utils/Functions.java:13-14 | the raw values accepted are the weekdays of the Sunday-first numbering that the day-name switch uses |
| Days.IsWorkdayMisnamesIsoDays | src/Utils/Functions.java:11-17 | ISO 1 is named Monday but is not a working day; ISO 6 is named Saturday but is |
| Days.IsWorkdayIso | src/Utils/Functions.java:11-17 | the intended check holds exactly for ISO days 1..7 whose `getTipoDia` name is neither Saturday nor Sunday, whatever integer it is given |
| Days.WorkdayDiscrepancy | src/Utils/Functions.java:11-17 | on ISO days the two checks disagree exactly on Monday and Saturday |

## Left out

- Console output: every `println`/`printf`, the `%.2f` text of both exceptions' `getMessage`, and `Repository.logOperation`. The constructor's and deposit's message arguments are kept as data.
- `gerarRelatorio`'s `Scanner(System.in)` try-with-resources. It holds no state the loop uses; only the per-account loop is modelled.
- Real file persistence. `salvarExtrato` writes nothing; only its `*` test is modelled.
- `toLowerCase` and `equalsIgnoreCase` map ASCII letters only. Unicode case mapping is not modelled. Every character other than A..Z is left as is, so `*` is preserved, which is all the report relies on.
- Floating-point rounding: balances, salaries and sales are exact reals.
- Bank.NewAccount, Bank.Withdraw, Bank.Deposit, Bank.TransferFunds: NaN and ±Infinity are not modelled. In Java they pass every guard of the ledger: `new ContaBancaria("Ana", Double.NaN)` is accepted because `NaN < 0` is false, and `depositar(NaN)` and `sacar(NaN)` are accepted too. So the `balance >= 0` invariant these contracts state holds of the Java program only for finite amounts.
- MethodsBasics.IndexOfBest, MethodsBasics.IndexOfWorst: NaN is not modelled. With a NaN in the `double` array every comparison with it is false, so `encontrarIndiceMelhorMes({NaN, 1.0})` returns 0 although that array has no maximum; the contracts' "holds a maximum/minimum" holds of Java only for arrays without NaN.
- MethodsBasics.Pad2, MethodsBasics.FormatDate, MethodsBasics.FormatDateLong: `String.format` renders `%d` and `%02d` with the default locale's digits; the model assumes ASCII `0`..`9`.
- Bank.DepositThenWithdraw, Bank.TransferConservesTotal: hold over exact reals only. With `double`, `0.1 + 0.2 - 0.2` is not `0.1`, and `depositar(+Infinity)` followed by `sacar(+Infinity)` gives NaN.
- Null references: a `null` accounts list or a `null` account in it makes `gerarRelatorio` throw `NullPointerException`, which is not caught and ends the whole report. A `null` source or destination makes `transferir` throw before any change. A `null` person makes `save` throw. A `null` array makes `encontrarMaior`, `encontrarMenor`, `ordenarArray`, `filtrarPares`, `modificarArray`, `encontrarIndiceMelhorMes` and `encontrarIndicePiorMes` throw. The model's accounts, people and arrays are never null, so none of these paths is modelled.
- `transferir(a, a, v)` with the same account on both sides. Accounts are values, so the model covers distinct accounts only.
- Changing a `Pessoa` through its setters after `save`. Validity is guaranteed at insertion only. The getters, setters and `getInfo`/`getTipo`/`getInfoCompleta` strings (formatting only) are not modelled.
- `PessoaRepository.proximoId`: never read or updated.
- The `Repository` and `Validatable` interfaces: they add no behaviour beyond the implementations modelled.
- People.FindById: requires the stored list to hold fewer than 2^31 people, the bound of a Java list's `int` size. A `null` `Long` id, which would throw `NullPointerException`, is not modelled.
- People.DevelopersSpeaking: treats a developer with a `null` language as not matching. In Java that would throw. Such a developer cannot be stored by `save` (People.StoredDevelopersHaveLanguage).
- MethodsBasics.ScaleByTen: the in-place contract is stated with `old`, as the array is mutated.
- Days.DayType and Days.IsWorkday take the ISO day number instead of a `LocalDate`.
- `LocalDate` itself is not modelled. `getDayOfWeek().getValue()` is always 1..7, so the `Dia inválido` branch and `IsWorkday` on other integers describe inputs the source cannot produce.
- Floating-point and random helpers of `MethodsBasics.java`:
  - `calcularMedia`, the `double` `calcularArea`, `calcularMediaArray`;
  - `operacaoBasica`, `potencia`, `raizQuadrada`, `logaritmo` and the trigonometric functions;
  - `calcularMediaVendas`, `calcularTotalAnual`, `calcularDesvioPadrao`, `calcularCrescimentoMedio`, `analisarPerformanceMensal`;
  - `gerarNumeroAleatorio` (uses `Math.random`).
- `encontrarMaiorVenda` and `encontrarMenorVenda`: the `double` twins of `encontrarMaior`/`encontrarMenor`, without the empty-array guard.
- `somar`, `obterSaudacao`, `cumprimentarPessoa`, `gerarRelatorioVenda` and the `tentarModificar*` demonstrations: one-line returns or printing only.
- The tutorial files with no callable logic:
  - `ArraysBasics.java`, `ConditionalStructures.java`, `LoopStructures.java`, `Constants.java`: straight-line demonstrations on fixed data;
  - `CollectionsExample.java`: library showcases;
  - `PrintlnReference.java`: println aliases;
  - `PrimitiveTypes.java`: literal dumps;
  - `ArrayBasic.java`: empty `main`.

## Findings

| source | as written | input that shows it | evidently intended | confidence | as-written member | corrected member |
|---|---|---|---|---|---|---|
| src/OOPAdvancedExample.java:203-204 | `findById` compares the `Long` id with the size, then indexes with `id.intValue() - 1`, which keeps only the low 32 bits | id = 1 - 2^32 on a non-empty repository returns the first person instead of throwing | a non-positive id never names a person | medium, not executed | People.FindByIdNegativeAlias | People.FindByIdChecked |
| src/Utils/Functions.java:11-17 | `isDiaUtil` accepts the raw ISO values 2..6, Tuesday to Saturday, although its comment says Monday to Friday | ISO 1 (Monday) gives false; ISO 6 (Saturday) gives true | Monday to Friday, ISO values 1..5 | high, not executed | Days.IsWorkdayMisnamesIsoDays | Days.IsWorkdayIso |

=== FILE: bank.dfy ===
/**
 * The account ledger of `ExceptionHandlingExample.java`: the validating
 * `ContaBancaria` constructor, withdrawal and deposit, the statement save,
 * and the `ServicoBancario` operations built on them (account creation,
 * transfer, batch report).
 *
 * Java exceptions become values of `Failure`; an account is an immutable value
 * and every mutator returns the account as it is after the call. Balances are
 * `real`: the source's `double` is only added, subtracted and compared.
 */
module Bank {
  import opened JavaLang

  /** The rejected value a validation failure carries (a Java `Object`):
      either the owner string, which may be null, or an amount. */
  datatype Rejected = RejectedText(text: JString) | RejectedAmount(amount: real)

  /** The three exception kinds of the ledger. */
  datatype Failure =
    | /** `UsuarioInvalidoException`: field name, rejected value, message. */
      Invalid(field: string, value: Rejected, message: string)
    | /** `SaldoInsuficienteException`: balance at the time and the amount asked for. */
      Insufficient(current: real, attempted: real)
    | /** `IOException` raised by the statement save, naming the target. */
      Io(name: string)

  datatype Result<T> = Ok(value: T) | Err(failure: Failure)

  /** Whether an operation without a result value completed or threw. */
  datatype Status = Done | Failed(failure: Failure)

  datatype Account = Account(owner: string, balance: real)

  const OwnerRequired: string := "Nome do titular é obrigatório"
  const NegativeInitial: string := "Saldo inicial não pode ser negativo"
  const DepositNotPositive: string := "Valor do depósito deve ser positivo"

  /** What every account satisfies from construction on. */
  predicate Valid(a: Account)
  {
    !IsBlank(a.owner) && a.balance >= 0.0
  }

  /** The `ContaBancaria` constructor: the owner check runs first, then the
      balance check; on success the arguments are stored unchanged. */
  function NewAccount(owner: JString, initial: real): (r: Result<Account>)
    ensures r.Ok? <==> HasText(owner) && initial >= 0.0
    ensures r.Ok? ==> r.value == Account(owner.chars, initial) && Valid(r.value)
    ensures !HasText(owner) ==>
              r == Err(Invalid("titular", RejectedText(owner), OwnerRequired))
    ensures HasText(owner) && initial < 0.0 ==>
              r == Err(Invalid("saldoInicial", RejectedAmount(initial), NegativeInitial))
  {
    if owner.Null? || IsBlank(owner.chars) then
      Err(Invalid("titular", RejectedText(owner), OwnerRequired))
    else if initial < 0.0 then
      Err(Invalid("saldoInicial", RejectedAmount(initial), NegativeInitial))
    else
      Ok(Account(owner.chars, initial))
  }

  /** `sacar`: refuses an amount above the balance, reporting the balance as it
      was; otherwise debits it. A negative amount is not refused. */
  function Withdraw(a: Account, amount: real): (r: Result<Account>)
    ensures r.Err? <==> amount > a.balance
    ensures r.Err? ==> r.failure == Insufficient(a.balance, amount)
    ensures r.Ok? ==> r.value.owner == a.owner && r.value.balance + amount == a.balance
    ensures r.Ok? && Valid(a) ==> Valid(r.value)
  {
    if amount > a.balance then Err(Insufficient(a.balance, amount))
    else Ok(a.(balance := a.balance - amount))
  }

  /** `depositar`: refuses a non-positive amount; otherwise credits it. */
  function Deposit(a: Account, amount: real): (r: Result<Account>)
    ensures r.Err? <==> amount <= 0.0
    ensures r.Err? ==> r.failure == Invalid("valor", RejectedAmount(amount), DepositNotPositive)
    ensures r.Ok? ==> r.value.owner == a.owner && r.value.balance == a.balance + amount
    ensures r.Ok? ==> r.value.balance > a.balance
    ensures r.Ok? && Valid(a) ==> Valid(r.value)
  {
    if amount <= 0.0 then Err(Invalid("valor", RejectedAmount(amount), DepositNotPositive))
    else Ok(a.(balance := a.balance + amount))
  }

  /** Construction cases: an empty owner is refused as in the demonstration,
      a blank owner is reported before a negative balance, and a zero
      balance is accepted. */
  lemma ConstructionScenario()
    ensures NewAccount(Str(""), 500.0).failure.field == "titular"
    ensures NewAccount(Str("   "), -1.0).failure.field == "titular"
    ensures NewAccount(Null, 0.0).failure.field == "titular"
    ensures NewAccount(Str("Ana"), -1.0).failure.field == "saldoInicial"
    ensures NewAccount(Str("Ana"), 0.0) == Ok(Account("Ana", 0.0))
  {
    assert "Ana"[0] == 'A';
  }

  /** Whatever a withdrawal or deposit does, an account that was valid stays valid. */
  lemma MutatorsPreserveValid(a: Account, amount: real)
    requires Valid(a)
    ensures Withdraw(a, amount).Ok? ==> Valid(Withdraw(a, amount).value)
    ensures Deposit(a, amount).Ok? ==> Valid(Deposit(a, amount).value)
    ensures Withdraw(a, amount).Err? ==> amount > 0.0
  {
  }

  /** Withdrawing exactly the balance is allowed and empties the account. */
  lemma WithdrawWholeBalance(a: Account)
    ensures Withdraw(a, a.balance) == Ok(a.(balance := 0.0))
  {
  }

  /** A deposit followed by the withdrawal of the same amount restores the account. */
  lemma DepositThenWithdraw(a: Account, amount: real)
    requires Valid(a) && amount > 0.0
    ensures Deposit(a, amount).Ok?
    ensures Withdraw(Deposit(a, amount).value, amount) == Ok(a)
  {
  }

  /** `salvarExtrato`: the simulated file write fails exactly for a name containing `*`. */
  function SaveStatement(name: string): (r: Status)
    ensures r.Failed? <==> '*' in name
    ensures r.Failed? ==> r.failure == Io(name)
  {
    if '*' in name then Failed(Io(name)) else Done
  }

  /** `criarConta` delegates to the constructor unchanged. */
  function CreateAccount(owner: JString, initial: real): (r: Result<Account>)
    ensures r.Ok? ==> Valid(r.value) && owner.Str? && r.value.owner == owner.chars && r.value.balance == initial
    ensures r.Err? ==> r.failure.Invalid?
    ensures r.Err? <==> !HasText(owner) || initial < 0.0
  {
    NewAccount(owner, initial)
  }

  /** The state of both accounts after `transferir`, and how it ended. */
  datatype Transfer = Transfer(source: Account, dest: Account, status: Status)

  /** `transferir` on two distinct accounts: withdraw from the source, then
      deposit into the destination, with no compensation if the deposit fails. */
  function TransferFunds(source: Account, dest: Account, amount: real): (r: Transfer)
    // the withdrawal fails: nothing moved
    ensures amount > source.balance ==>
              r == Transfer(source, dest, Failed(Insufficient(source.balance, amount)))
    // the withdrawal succeeds but the deposit fails: the source stays debited
    ensures amount <= source.balance && amount <= 0.0 ==>
              && r.source == source.(balance := source.balance - amount)
              && r.dest == dest
              && r.status == Failed(Invalid("valor", RejectedAmount(amount), DepositNotPositive))
    // both steps succeed: exactly `amount` moved
    ensures r.status.Done? <==> 0.0 < amount <= source.balance
    ensures r.status.Done? ==>
              && r.source == source.(balance := source.balance - amount)
              && r.dest == dest.(balance := dest.balance + amount)
    ensures r.source.owner == source.owner && r.dest.owner == dest.owner
    ensures Valid(source) && Valid(dest) ==> Valid(r.source) && Valid(r.dest)
  {
    match Withdraw(source, amount)
    case Err(e) => Transfer(source, dest, Failed(e))
    case Ok(debited) =>
      match Deposit(dest, amount)
      case Err(e) => Transfer(debited, dest, Failed(e))
      case Ok(credited) => Transfer(debited, credited, Done)
  }

  /** A completed transfer keeps the total of the two balances. */
  lemma TransferConservesTotal(source: Account, dest: Account, amount: real)
    ensures var r := TransferFunds(source, dest, amount);
            r.status.Done? ==> r.source.balance + r.dest.balance == source.balance + dest.balance
  {
  }

  /** A transfer that fails on the withdrawal leaves both accounts exactly as they were. */
  lemma TransferFailureIsAtomicOnWithdraw(source: Account, dest: Account, amount: real)
    requires Withdraw(source, amount).Err?
    ensures TransferFunds(source, dest, amount).source == source
    ensures TransferFunds(source, dest, amount).dest == dest
  {
  }

  /** A non-positive amount from a valid source: the withdrawal cannot fail,
      the deposit always does, and the source keeps the (non-)debit. */
  lemma TransferNonPositive(source: Account, dest: Account, amount: real)
    requires Valid(source) && amount <= 0.0
    ensures Withdraw(source, amount).Ok?
    ensures var r := TransferFunds(source, dest, amount);
            && r.status == Failed(Invalid("valor", RejectedAmount(amount), DepositNotPositive))
            && r.source.balance == source.balance - amount
            && r.dest == dest
  {
  }

  /** The demonstration of the source: Pedro (300) pays Ana (200) 100, then
      tries 500 and is refused with the balance left after the first transfer. */
  lemma TransferScenario()
    ensures var pedro := NewAccount(Str("Pedro"), 300.0);
            var ana := NewAccount(Str("Ana"), 200.0);
            && pedro.Ok? && ana.Ok?
            && var first := TransferFunds(pedro.value, ana.value, 100.0);
               && first.status == Done
               && first.source.balance == 200.0 && first.dest.balance == 300.0
               && var second := TransferFunds(first.source, first.dest, 500.0);
                  && second.status == Failed(Insufficient(200.0, 500.0))
                  && second.source == first.source && second.dest == first.dest
  {
    assert "Pedro"[0] == 'P';
    assert "Ana"[0] == 'A';
  }

  /** The file name `gerarRelatorio` derives from an owner. */
  function StatementName(owner: string): (r: string)
    ensures |r| == |owner| + 12
    ensures r[..8] == "extrato_" && r[|r| - 4..] == ".txt"
    ensures r[8..|r| - 4] == Lower(owner)
  {
    "extrato_" + Lower(owner) + ".txt"
  }

  /** The derived name holds `*` exactly when the owner does: the fixed parts
      and lower-casing never add or remove one. */
  lemma StatementNameStar(owner: string)
    ensures '*' in StatementName(owner) <==> '*' in owner
  {
    var low := Lower(owner);
    LowerKeepsNonLetter(owner, '*');
    assert StatementName(owner) == "extrato_" + low + ".txt";
    assert '*' !in "extrato_" && '*' !in ".txt";
  }

  /** One report line: the summary that is always printed, plus the outcome of
      the attempted statement save. */
  datatype Entry = Entry(owner: string, balance: real, file: string, saved: Status)

  function ReportEntry(a: Account): (e: Entry)
    ensures e.owner == a.owner && e.balance == a.balance
    ensures e.file == StatementName(a.owner)
    ensures e.saved.Failed? <==> '*' in a.owner
    ensures e.saved.Failed? ==> e.saved.failure == Io(e.file)
  {
    var name := StatementName(a.owner);
    StatementNameStar(a.owner);
    Entry(a.owner, a.balance, name, SaveStatement(name))
  }

  /** `gerarRelatorio`: one entry per account in input order; a failed save is
      caught inside the iteration, so the batch always runs to the end. */
  method GenerateReport(accounts: seq<Account>) returns (lines: seq<Entry>)
    ensures |lines| == |accounts|
    ensures forall i :: 0 <= i < |accounts| ==>
              && lines[i].owner == accounts[i].owner
              && lines[i].balance == accounts[i].balance
              && lines[i].file == StatementName(accounts[i].owner)
              && (lines[i].saved.Failed? <==> '*' in accounts[i].owner)
              && (lines[i].saved.Failed? ==> lines[i].saved.failure == Io(lines[i].file))
  {
    lines := [];
    for k := 0 to |accounts|
      invariant |lines| == k
      invariant forall i :: 0 <= i < k ==> lines[i] == ReportEntry(accounts[i])
    {
      lines := lines + [ReportEntry(accounts[k])];
    }
  }

  /** The demonstration report: the third owner's name holds `*`, so only its
      save fails, and the two lines before it are unaffected. */
  lemma ReportScenario()
    ensures ReportEntry(Account("Cliente 1", 1000.0)).saved == Done
    ensures ReportEntry(Account("Cliente 2", 2000.0)).saved == Done
    ensures ReportEntry(Account("Cliente*Inválido", 500.0)).saved.Failed?
  {
    assert '*' !in "Cliente 1";
    assert '*' !in "Cliente 2";
    assert "Cliente*Inválido"[7] == '*';
  }
}

=== FILE: days.dfy ===
/**
 * The two day-of-week helpers of `Utils/Functions.java`. Both receive the
 * ISO-8601 day number of a `LocalDate` (1 = Monday ... 7 = Sunday); the model
 * takes that number directly, as any `int`, since both switches are total.
 */
module Days {
  import opened JavaLang

  const Invalid: string := "Dia inválido"

  /** The switch of `getTipoDia`, numbered from Sunday: 1 = Sunday ... 7 = Saturday. */
  function SundayFirstName(k: int): (r: string)
    ensures 1 <= k <= 7 ==> r == IsoNames[(k + 5) % 7]
    ensures r == Invalid <==> !(1 <= k <= 7)
  {
    if k == 1 then "Domingo"
    else if k == 2 then "Segunda-feira"
    else if k == 3 then "Terça-feira"
    else if k == 4 then "Quarta-feira"
    else if k == 5 then "Quinta-feira"
    else if k == 6 then "Sexta-feira"
    else if k == 7 then "Sábado"
    else Invalid
  }

  /** The day names in ISO order, Monday first: the reference `getTipoDia` is checked against. */
  const IsoNames: seq<string> :=
    ["Segunda-feira", "Terça-feira", "Quarta-feira", "Quinta-feira", "Sexta-feira", "Sábado", "Domingo"]

  /** `getTipoDia`: shifts the ISO number with Java's `% 7 + 1` into the
      Sunday-first numbering, then names the day. */
  function DayType(iso: int): (r: string)
    ensures 1 <= iso <= 7 ==> r == IsoNames[iso - 1]
    ensures r == Invalid <==> iso < 0 && iso % 7 != 0
  {
    SundayFirstName(JavaRem(iso, 7) + 1)
  }

  /** On real ISO days no two days share a name and none is invalid. */
  lemma DayTypeInjective(a: int, b: int)
    requires 1 <= a <= 7 && 1 <= b <= 7 && a != b
    ensures DayType(a) != DayType(b)
    ensures DayType(a) != Invalid
  {
  }

  /** Only the day number modulo 7 matters for a non-negative number. */
  lemma DayTypeWeekly(iso: nat)
    ensures DayType(iso + 7) == DayType(iso)
  {
  }

  /** `isDiaUtil` as written: true for the raw values 2..6, with no shift. */
  function IsWorkday(iso: int): (r: bool)
    ensures r <==> 2 <= iso <= 6
  {
    iso == 2 || iso == 3 || iso == 4 || iso == 5 || iso == 6
  }

  /** The as-written check names weekdays only in the Sunday-first numbering
      that `getTipoDia` uses internally. */
  lemma IsWorkdayUsesSundayFirst(k: int)
    ensures IsWorkday(k) <==> SundayFirstName(k) in IsoNames[..5]
  {
    var weekdays := IsoNames[..5];
    assert weekdays == ["Segunda-feira", "Terça-feira", "Quarta-feira", "Quinta-feira", "Sexta-feira"];
    var name := SundayFirstName(k);
    if 2 <= k <= 6 {
      assert name == weekdays[k - 2];
    } else {
      assert |name| < 13 && name[|name| - 1] != 'a' by {
        assert name == "Domingo" || name == "Sábado" || name == Invalid;
      }
      forall w | w in weekdays ensures w != name {
        assert |w| >= 13 || w[|w| - 1] == 'a';
      }
    }
  }

  /** Applied to ISO days, the as-written check calls Monday a rest day and
      Saturday a working day. */
  lemma IsWorkdayMisnamesIsoDays()
    ensures DayType(1) == "Segunda-feira" && !IsWorkday(1)
    ensures DayType(6) == "Sábado" && IsWorkday(6)
  {
  }

  /** `isDiaUtil` with its stated intent, Monday to Friday in ISO numbering. */
  function IsWorkdayIso(iso: int): (r: bool)
    ensures r <==> 1 <= iso <= 7 && DayType(iso) != "Sábado" && DayType(iso) != "Domingo"
  {
    1 <= iso <= 5
  }

  /** The two checks disagree on exactly two ISO days, Monday and Saturday. */
  lemma WorkdayDiscrepancy(iso: int)
    requires 1 <= iso <= 7
    ensures IsWorkday(iso) != IsWorkdayIso(iso) <==> iso == 1 || iso == 6
  {
  }
}

=== FILE: java_lang.dfy ===
/**
 * The small slice of the Java platform that the modelled classes rely on:
 * 32-bit `int` arithmetic, the truncating `%` operator, nullable strings,
 * `String.trim().isEmpty()`, ASCII case mapping and `%d` rendering.
 */
module JavaLang {

  /** Java `int`: a 32-bit two's-complement integer. */
  type int32 = x: int | -0x8000_0000 <= x < 0x8000_0000

  /** Java `long`, the value carried by a boxed `Long`. */
  type int64 = x: int | -0x8000_0000_0000_0000 <= x < 0x8000_0000_0000_0000

  const TwoTo32: int := 0x1_0000_0000

  /** Narrowing to `int` (the result of an overflowing `int` operation, or `Long.intValue()`):
      keeps the low 32 bits and reinterprets them as a signed value. */
  function Wrap32(x: int): (r: int32)
    ensures (r - x) % TwoTo32 == 0
    ensures -0x8000_0000 <= x < 0x8000_0000 ==> r == x
  {
    var m := x % TwoTo32;
    if m >= 0x8000_0000 then m - TwoTo32 else m
  }

  /** Java's `%` for a positive divisor: the remainder of division truncated
      toward zero. It is congruent to the dividend and takes the dividend's sign,
      whereas Dafny's `%` is never negative. */
  function JavaRem(a: int, b: int): (r: int)
    requires b > 0
    ensures -b < r < b
    ensures a >= 0 ==> r >= 0
    ensures a <= 0 ==> r <= 0
    ensures r % b == a % b
  {
    var m := a % b;
    if a < 0 && m != 0 then
      ModOfRange(m - b, b, -1);
      ModOfRange(m, b, 0);
      m - b
    else
      ModOfRange(m, b, 0);
      m
  }

  /** A number `k` multiples of `b` above a value in `0..b-1` has that value as
      its remainder: the remainder of Euclidean division is unique. */
  lemma ModOfRange(x: int, b: int, k: int)
    requires b > 0 && 0 <= x - k * b < b
    ensures x % b == x - k * b
  {
    var d := x / b - k;
    assert d * b == (x - k * b) - x % b;
    MulBeyondOne(d, b);
  }

  /** A nonzero multiple of a positive number is at least that number away from zero. */
  lemma MulBeyondOne(d: int, b: int)
    requires b > 0
    ensures d >= 1 ==> d * b >= b
    ensures d <= -1 ==> d * b <= -b
  {
  }

  /** A Java `String` reference, which may be `null`. */
  datatype JString = Null | Str(chars: string)

  /** `s.trim().isEmpty()`: `trim` strips every leading and trailing character
      whose code is at most U+0020, so the result is empty exactly when every
      character is such a one. */
  predicate IsBlank(s: string)
  {
    forall i :: 0 <= i < |s| ==> s[i] <= ' '
  }

  /** The guard `s != null && !s.trim().isEmpty()` shared by the validators. */
  predicate HasText(s: JString)
  {
    s.Str? && !IsBlank(s.chars)
  }

  function LowerChar(c: char): char
  {
    if 'A' <= c <= 'Z' then (c as int - 'A' as int + 'a' as int) as char else c
  }

  /** `String.toLowerCase()` restricted to ASCII letters. */
  function Lower(s: string): (r: string)
    ensures |r| == |s|
    ensures forall i :: 0 <= i < |s| ==> r[i] == LowerChar(s[i])
  {
    seq(|s|, i requires 0 <= i < |s| => LowerChar(s[i]))
  }

  /** Lower-casing only moves the letters A..Z, so a character that is not one of
      them occurs in the result exactly when it occurs in the input. */
  lemma LowerKeepsNonLetter(s: string, c: char)
    requires !('A' <= c <= 'Z') && !('a' <= c <= 'z')
    ensures c in Lower(s) <==> c in s
  {
    var r := Lower(s);
    if c in s {
      var i :| 0 <= i < |s| && s[i] == c;
      assert r[i] == c;
    }
    if c in r {
      var i :| 0 <= i < |r| && r[i] == c;
      assert s[i] == c;
    }
  }

  /** `a.equalsIgnoreCase(b)` for a non-null `a`: false for a null argument,
      otherwise equal lengths and equal characters up to ASCII case. */
  predicate EqualsIgnoreCase(a: string, b: JString)
  {
    b.Str? && Lower(a) == Lower(b.chars)
  }

  /** The outcome of a Java call that may throw `IndexOutOfBoundsException`. */
  datatype Indexed<T> = Normal(value: T) | IndexOutOfBounds(index: int)

  /** Decimal digits of a natural number, as `%d` renders it. */
  function ShowNat(n: nat): (r: string)
    ensures |r| > 0
    ensures forall i :: 0 <= i < |r| ==> '0' <= r[i] <= '9'
    decreases n
  {
    var d := ['0' + (n % 10) as char];
    if n < 10 then d else ShowNat(n / 10) + d
  }

  /** `%d` of an arbitrary integer: the digits of a non-negative number, a
      minus sign before the digits of the magnitude otherwise. */
  function ShowInt(n: int): (r: string)
    ensures n >= 0 ==> r == ShowNat(n)
    ensures n < 0 ==> |r| == |ShowNat(-n)| + 1 && r[0] == '-' && r[1..] == ShowNat(-n)
  {
    if n < 0 then "-" + ShowNat(-n) else ShowNat(n)
  }

  /** Reads a run of decimal digits back as a number (most significant first). */
  function ReadNat(s: string): nat
  {
    if |s| == 0 then 0 else ReadNat(s[..|s| - 1]) * 10 + Digit(s[|s| - 1])
  }

  function Digit(c: char): nat
  {
    if '0' <= c <= '9' then c as int - '0' as int else 0
  }

  /** Rendering a number in decimal and reading it back gives the number. */
  lemma {:induction false} ShowNatRoundTrip(n: nat)
    ensures ReadNat(ShowNat(n)) == n
    decreases n
  {
    var d := ['0' + (n % 10) as char];
    if n >= 10 {
      ShowNatRoundTrip(n / 10);
      var s := ShowNat(n / 10) + d;
      assert s[..|s| - 1] == ShowNat(n / 10);
    }
  }

  /** A leading `'0'` does not change the value read. */
  lemma {:induction false} ReadNatLeadingZero(s: string)
    ensures ReadNat("0" + s) == ReadNat(s)
    decreases |s|
  {
    if |s| > 0 {
      var t := "0" + s;
      assert t[..|t| - 1] == "0" + s[..|s| - 1];
      ReadNatLeadingZero(s[..|s| - 1]);
    }
  }
}

=== FILE: methods_basics.dfy ===
/**
 * The integer and array helpers of `MethodsBasics.java`: parity, the integer
 * area overloads, date formatting, maximum and minimum, sorted copy, even
 * filter, in-place scaling and the first index of the best and worst month.
 *
 * Java `int` values are `int32`; the two multiplications that can overflow
 * (`calcularArea`, `modificarArray`) wrap explicitly through `Wrap32`.
 */
module MethodsBasics {
  import opened JavaLang

  /** `verificarSePar`: Java's `numero % 2 == 0`. Although Java's remainder can
      be negative, it is zero exactly when the number is even. */
  function IsEven(n: int32): (r: bool)
    ensures r <==> n % 2 == 0
  {
    JavaRem(n, 2) == 0
  }

  /** `calcularArea(int lado)`: the square's area, wrapped to 32 bits. */
  function SquareArea(side: int32): (r: int32)
    ensures (r - Square(side)) % TwoTo32 == 0
    ensures Square(side) < 0x8000_0000 ==> r == Square(side)
  {
    Wrap32(Square(side))
  }

  function Square(x: int): int
  {
    x * x
  }

  /** The square of 46341 is the first square that no longer fits an `int`. */
  lemma SquareFitsBelow46341(side: int32)
    ensures Square(side) < 0x8000_0000 <==> -46340 <= side <= 46340
  {
    var n: nat := if side < 0 then -(side as int) else side as int;
    assert Square(side) == n * n;
    if n <= 46340 {
      MulMonotone(n, 46340, n);
      MulMonotone(n, 46340, 46340);
    } else {
      MulMonotone(46341, n, n);
      MulMonotone(46341, n, 46341);
    }
  }

  lemma MulMonotone(a: nat, b: nat, c: nat)
    requires a <= b
    ensures a * c <= b * c
  {
  }

  /** `calcularArea(int largura, int altura)`: the rectangle's area, wrapped to 32 bits. */
  function RectangleArea(width: int32, height: int32): (r: int32)
    ensures (r - width as int * height as int) % TwoTo32 == 0
    ensures -0x8000_0000 <= width as int * height as int < 0x8000_0000 ==> r == width as int * height as int
  {
    Wrap32(width as int * height as int)
  }

  /** A square is a rectangle with equal sides. */
  lemma SquareIsRectangle(side: int32)
    ensures SquareArea(side) == RectangleArea(side, side)
  {
  }

  /** `%02d`: at least two characters, padding a single digit with a zero
      (a negative number already takes two characters). A non-negative number
      becomes digits only, exactly two below 100 and no more than its own
      decimal digits from 10 on; a negative one is a minus sign before the
      digits of its magnitude. */
  function Pad2(n: int): (r: string)
    ensures |r| >= 2
    ensures 0 <= n < 100 ==> |r| == 2
    ensures n >= 10 ==> |r| == |ShowNat(n)|
    ensures n >= 0 ==> forall i :: 0 <= i < |r| ==> '0' <= r[i] <= '9'
    ensures n >= 0 ==> ReadNat(r) == n
    ensures n < 0 ==> r[0] == '-' && ReadNat(r[1..]) == -n
    ensures n < 0 ==> |r| == |ShowNat(-n)| + 1 && forall i :: 1 <= i < |r| ==> '0' <= r[i] <= '9'
  {
    if n < 0 then
      var digits := ShowNat(-n);
      ShowNatRoundTrip(-n);
      assert ("-" + digits)[1..] == digits;
      "-" + digits
    else if n < 10 then
      ShowNatRoundTrip(n);
      ReadNatLeadingZero(ShowNat(n));
      "0" + ShowNat(n)
    else
      ShowNatRoundTrip(n);
      assert n < 100 ==> |ShowNat(n)| == 2 by {
        if n < 100 {
          assert |ShowNat(n / 10)| == 1;
        }
      }
      ShowNat(n)
  }

  /** The three-argument `formatarData`: `dd/mm/yyyy`. For any arguments,
      negative or wide ones included, the text splits at its slashes into the
      `%02d` renderings of day and month and the `%d` rendering of the year. */
  function FormatDate(day: int32, month: int32, year: int32): (r: string)
    ensures SplitSlash(r).0 == Pad2(day)
    ensures SplitSlash(SplitSlash(r).1) == (Pad2(month), ShowInt(year))
    ensures 0 <= day < 100 && 0 <= month < 100 ==>
              && |r| >= 7 && r[2] == '/' && r[5] == '/'
              && forall i :: 0 <= i < 5 && i != 2 ==> '0' <= r[i] <= '9'
    ensures 0 <= day < 100 && 0 <= month < 100 && year >= 0 ==>
              && |r| == 6 + |ShowNat(year)|
              && forall i :: 6 <= i < |r| ==> '0' <= r[i] <= '9'
  {
    var d, m, y := Pad2(day), Pad2(month), ShowInt(year);
    Pad2NoSlash(day);
    Pad2NoSlash(month);
    SplitSlashAt(d, m + "/" + y);
    SplitSlashAt(m, y);
    DateLayout(d, m, y);
    d + "/" + m + "/" + y
  }

  /** Where the pieces of `d/m/y` sit when day and month take two characters. */
  lemma DateLayout(d: string, m: string, y: string)
    ensures d + "/" + m + "/" + y == d + "/" + (m + "/" + y)
    ensures |d| == 2 && |m| == 2 ==>
              var r := d + "/" + m + "/" + y;
              && |r| == 6 + |y| && r[2] == '/' && r[5] == '/'
              && r[0] == d[0] && r[1] == d[1] && r[3] == m[0] && r[4] == m[1]
              && forall i :: 6 <= i < |r| ==> r[i] == y[i - 6]
  {
  }

  /** `%02d` never produces a slash, so a date's fields split cleanly. */
  lemma Pad2NoSlash(n: int)
    ensures '/' !in Pad2(n)
  {
    var r := Pad2(n);
    forall i | 0 <= i < |r| ensures r[i] != '/' {
      if n < 0 && i == 0 {
        assert r[0] == '-';
      }
    }
  }

  const MonthNames: seq<string> :=
    ["Jan", "Fev", "Mar", "Abr", "Mai", "Jun", "Jul", "Ago", "Set", "Out", "Nov", "Dez"]

  /** The four-argument `formatarData`: the long form names the month from a
      twelve-entry table, so a month outside 1..12 throws; the short form is the
      three-argument one. */
  function FormatDateLong(day: int32, month: int32, year: int32, longForm: bool): (r: Indexed<string>)
    ensures !longForm ==> r == Normal(FormatDate(day, month, year))
    ensures r.IndexOutOfBounds? <==> longForm && !(1 <= month <= 12)
    ensures r.IndexOutOfBounds? ==> r.index == Wrap32(month as int - 1)
    ensures longForm && 1 <= month <= 12 ==>
              r == Normal(Pad2(day) + " de " + MonthNames[month - 1] + " de " + ShowInt(year))
  {
    if longForm then
      if 0 <= month - 1 < |MonthNames| then
        Normal(Pad2(day) + " de " + MonthNames[month - 1] + " de " + ShowInt(year))
      else
        IndexOutOfBounds(Wrap32(month as int - 1))
    else
      Normal(FormatDate(day, month, year))
  }

  /** Splits a string at its first `/`; the second part is empty when there is none. */
  function SplitSlash(s: string): (r: (string, string))
    ensures '/' !in r.0
  {
    if |s| == 0 then ("", "")
    else if s[0] == '/' then ("", s[1..])
    else var (a, b) := SplitSlash(s[1..]); ([s[0]] + a, b)
  }

  lemma {:induction false} SplitSlashAt(a: string, b: string)
    requires '/' !in a
    ensures SplitSlash(a + "/" + b) == (a, b)
    decreases |a|
  {
    if |a| > 0 {
      assert (a + "/" + b)[1..] == a[1..] + "/" + b;
      SplitSlashAt(a[1..], b);
      assert [a[0]] + a[1..] == a;
    } else {
      assert (a + "/" + b)[1..] == b;
    }
  }

  /** Reads a `dd/mm/yyyy` date back into its three numbers. */
  function ParseDate(s: string): (int, int, int)
  {
    var (d, rest) := SplitSlash(s);
    var (m, y) := SplitSlash(rest);
    (ReadNat(d), ReadNat(m), ReadNat(y))
  }

  /** The short date format loses nothing: for a non-negative day, month and
      year, parsing the formatted text gives the three numbers back. */
  lemma FormatDateRoundTrip(day: int32, month: int32, year: int32)
    requires day >= 0 && month >= 0 && year >= 0
    ensures ParseDate(FormatDate(day, month, year)) == (day as int, month as int, year as int)
  {
    var d, m, y := Pad2(day), Pad2(month), ShowInt(year);
    assert d == (if day < 10 then "0" + ShowNat(day) else ShowNat(day));
    assert m == (if month < 10 then "0" + ShowNat(month) else ShowNat(month));
    assert '/' !in d by {
      forall i | 0 <= i < |d| ensures d[i] != '/' { }
    }
    assert '/' !in m by {
      forall i | 0 <= i < |m| ensures m[i] != '/' { }
    }
    assert FormatDate(day, month, year) == d + "/" + (m + "/" + y);
    SplitSlashAt(d, m + "/" + y);
    SplitSlashAt(m, y);
    ShowNatRoundTrip(year);
  }

  /** `encontrarMaior`: 0 for an empty array, otherwise an element no smaller than any other. */
  method FindLargest(a: seq<int32>) returns (largest: int32)
    ensures |a| == 0 ==> largest == 0
    ensures |a| > 0 ==> largest in a
    ensures forall i :: 0 <= i < |a| ==> a[i] <= largest
  {
    if |a| == 0 {
      return 0;
    }
    largest := a[0];
    for k := 0 to |a|
      invariant largest in a
      invariant forall i :: 0 <= i < k ==> a[i] <= largest
    {
      if a[k] > largest {
        largest := a[k];
      }
    }
  }

  /** `encontrarMenor`: 0 for an empty array, otherwise an element no larger than any other. */
  method FindSmallest(a: seq<int32>) returns (smallest: int32)
    ensures |a| == 0 ==> smallest == 0
    ensures |a| > 0 ==> smallest in a
    ensures forall i :: 0 <= i < |a| ==> smallest <= a[i]
  {
    if |a| == 0 {
      return 0;
    }
    smallest := a[0];
    for k := 0 to |a|
      invariant smallest in a
      invariant forall i :: 0 <= i < k ==> smallest <= a[i]
    {
      if a[k] < smallest {
        smallest := a[k];
      }
    }
  }

  predicate Sorted(s: seq<int32>)
  {
    forall i, j :: 0 <= i < j < |s| ==> s[i] <= s[j]
  }

  /** Inserts `x` into an ascending sequence, keeping it ascending. */
  function Insert(x: int32, s: seq<int32>): (r: seq<int32>)
    requires Sorted(s)
    ensures Sorted(r)
    ensures multiset(r) == multiset(s) + multiset{x}
    decreases |s|
  {
    if |s| == 0 then [x]
    else if x <= s[0] then [x] + s
    else
      var rest := s[1..];
      var t := Insert(x, rest);
      assert s == [s[0]] + rest;
      LowerBoundKept(s[0], x, rest, t);
      ConsSorted(s[0], t);
      [s[0]] + t
  }

  /** A lower bound of `x` and of every element of `s` bounds every element of
      a sequence holding exactly those values. */
  lemma LowerBoundKept(low: int32, x: int32, s: seq<int32>, t: seq<int32>)
    requires low <= x && forall i :: 0 <= i < |s| ==> low <= s[i]
    requires multiset(t) == multiset(s) + multiset{x}
    ensures forall i :: 0 <= i < |t| ==> low <= t[i]
  {
    forall i | 0 <= i < |t| ensures low <= t[i] {
      assert t[i] in multiset(t);
      if t[i] != x {
        assert t[i] in s;
      }
    }
  }

  /** Putting a lower bound in front of an ascending sequence keeps it ascending. */
  lemma ConsSorted(low: int32, t: seq<int32>)
    requires Sorted(t) && forall i :: 0 <= i < |t| ==> low <= t[i]
    ensures Sorted([low] + t)
  {
    var r := [low] + t;
    forall i, j | 0 <= i < j < |r| ensures r[i] <= r[j] {
      assert r[j] == t[j - 1];
      if i > 0 {
        assert r[i] == t[i - 1];
      }
    }
  }

  /** `ordenarArray`: the ascending rearrangement of a copy of the input (the
      role `Arrays.sort` plays in the source); the input itself is a value and
      is not touched. */
  function SortedCopy(s: seq<int32>): (r: seq<int32>)
    ensures Sorted(r)
    ensures multiset(r) == multiset(s)
    ensures |r| == |s|
    decreases |s|
  {
    if |s| == 0 then []
    else
      assert s == [s[0]] + s[1..];
      Insert(s[0], SortedCopy(s[1..]))
  }

  /** The even elements of a sequence in their original order: the reference
      against which `FilterEvens` is checked. */
  function Evens(s: seq<int32>): (r: seq<int32>)
    ensures |r| <= |s|
  {
    if |s| == 0 then []
    else Evens(s[..|s| - 1]) + (if IsEven(s[|s| - 1]) then [s[|s| - 1]] else [])
  }

  /** Exactly the even elements survive the filter. */
  lemma {:induction false} EvensMembership(s: seq<int32>, x: int32)
    ensures x in Evens(s) <==> x in s && x % 2 == 0
  {
    if |s| > 0 {
      var init := s[..|s| - 1];
      EvensMembership(init, x);
      assert s == init + [s[|s| - 1]];
    }
  }

  /** The first pass of `filtrarPares`: how many elements are even. */
  function CountEvens(s: seq<int32>): (r: nat)
    ensures r <= |s|
    ensures r == 0 <==> forall i :: 0 <= i < |s| ==> !IsEven(s[i])
  {
    if |s| == 0 then 0 else CountEvens(s[..|s| - 1]) + (if IsEven(s[|s| - 1]) then 1 else 0)
  }

  lemma {:induction false} CountEvensIsLength(s: seq<int32>)
    ensures CountEvens(s) == |Evens(s)|
  {
    if |s| > 0 {
      CountEvensIsLength(s[..|s| - 1]);
    }
  }

  lemma {:induction false} EvensPrefixShorter(s: seq<int32>, k: nat)
    requires k <= |s|
    ensures |Evens(s[..k])| <= |Evens(s)|
    decreases |s|
  {
    if k < |s| {
      var init := s[..|s| - 1];
      assert s[..k] == init[..k];
      EvensPrefixShorter(init, k);
    } else {
      assert s[..k] == s;
    }
  }

  /** The first pass of `filtrarPares`: counts the even elements. */
  method CountEvensPass(a: seq<int32>) returns (count: nat)
    ensures count == CountEvens(a) == |Evens(a)|
  {
    count := 0;
    for k := 0 to |a|
      invariant count == CountEvens(a[..k])
    {
      assert a[..k + 1][..k] == a[..k];
      if IsEven(a[k]) {
        count := count + 1;
      }
    }
    assert a[..|a|] == a;
    CountEvensIsLength(a);
  }

  /** The second pass of `filtrarPares`: copies the even elements, in order,
      into an array of the counted size. */
  method FillEvens(a: seq<int32>, count: nat) returns (evens: seq<int32>)
    requires count == |Evens(a)|
    ensures evens == Evens(a)
  {
    var out := new int32[count];
    var index := 0;
    for k := 0 to |a|
      invariant index == |Evens(a[..k])| <= out.Length
      invariant out[..index] == Evens(a[..k])
    {
      assert a[..k + 1][..k] == a[..k];
      if IsEven(a[k]) {
        EvensPrefixShorter(a, k + 1);
        out[index] := a[k];
        index := index + 1;
      }
    }
    evens := out[..];
    assert a[..|a|] == a;
  }

  /** `filtrarPares`: counts the even elements, allocates an array of that size
      and fills it with them in order. */
  method FilterEvens(a: seq<int32>) returns (evens: seq<int32>)
    ensures evens == Evens(a)
    ensures |evens| == CountEvens(a)
  {
    var count := CountEvensPass(a);
    evens := FillEvens(a, count);
  }

  /** `modificarArray`: multiplies every element by 10 in place (wrapping on
      overflow); the length cannot change. */
  method ScaleByTen(a: array<int32>)
    modifies a
    ensures forall i :: 0 <= i < a.Length ==> a[i] == Wrap32(old(a[i]) as int * 10)
  {
    for k := 0 to a.Length
      invariant forall i :: 0 <= i < k ==> a[i] == Wrap32(old(a[i]) as int * 10)
      invariant forall i :: k <= i < a.Length ==> a[i] == old(a[i])
    {
      a[k] := Wrap32(a[k] as int * 10);
    }
  }

  /** `encontrarIndiceMelhorMes`: the first index of a maximum, since a later
      equal value does not replace it; 0 when there are fewer than two values. */
  method IndexOfBest(sales: seq<real>) returns (best: nat)
    ensures |sales| <= 1 ==> best == 0
    ensures |sales| > 0 ==> best < |sales|
    ensures |sales| > 0 ==> forall i :: 0 <= i < |sales| ==> sales[i] <= sales[best]
    ensures forall i :: 0 <= i < best ==> sales[i] < sales[best]
  {
    best := 0;
    if |sales| == 0 {
      return;
    }
    for k := 1 to |sales|
      invariant best < k
      invariant forall i :: 0 <= i < k ==> sales[i] <= sales[best]
      invariant forall i :: 0 <= i < best ==> sales[i] < sales[best]
    {
      if sales[k] > sales[best] {
        best := k;
      }
    }
  }

  /** `encontrarIndicePiorMes`: the first index of a minimum; 0 when there are
      fewer than two values. */
  method IndexOfWorst(sales: seq<real>) returns (worst: nat)
    ensures |sales| <= 1 ==> worst == 0
    ensures |sales| > 0 ==> worst < |sales|
    ensures |sales| > 0 ==> forall i :: 0 <= i < |sales| ==> sales[worst] <= sales[i]
    ensures forall i :: 0 <= i < worst ==> sales[worst] < sales[i]
  {
    worst := 0;
    if |sales| == 0 {
      return;
    }
    for k := 1 to |sales|
      invariant worst < k
      invariant forall i :: 0 <= i < k ==> sales[worst] <= sales[i]
      invariant forall i :: 0 <= i < worst ==> sales[worst] < sales[i]
    {
      if sales[k] < sales[worst] {
        worst := k;
      }
    }
  }
}

=== FILE: people.dfy ===
/**
 * The people of `OOPAdvancedExample.java`: the validation rules of `Pessoa`
 * and `Desenvolvedor`, the developer level classifier, and the in-memory
 * `PessoaRepository`.
 *
 * `Pessoa` is abstract and has exactly two concrete kinds, so a person is a
 * `Developer` or a `Manager`. The repository is a value holding the saved
 * people in insertion order; each operation returns the repository after it.
 */
module People {
  import opened JavaLang

  datatype Person =
    | /** `Desenvolvedor`; the salary is a `double`, only compared with zero. */
      Developer(name: JString, age: int32, email: JString,
                language: JString, years: int32, salary: real)
    | /** `Gerente`, which keeps the base validation. */
      Manager(name: JString, age: int32, email: JString,
              department: JString, teamSize: int32)

  /** `Pessoa.isValid`: a name with text, an age strictly between 0 and 120,
      and an e-mail containing `@`. */
  predicate BaseValid(p: Person)
  {
    && HasText(p.name)
    && 0 < p.age < 120
    && p.email.Str? && '@' in p.email.chars
  }

  /** `isValid` as dispatched on the concrete class: a developer adds a
      language with text, non-negative experience and a positive salary. */
  predicate IsValid(p: Person)
  {
    match p
    case Developer(_, _, _, language, years, salary) =>
      BaseValid(p) && HasText(language) && years >= 0 && salary > 0.0
    case Manager(_, _, _, _, _) =>
      BaseValid(p)
  }

  /** A valid person of either kind meets every rule of `Pessoa`: the
      developer's override only adds rules on top of `super.isValid()`. */
  lemma ValidityRules(p: Person)
    ensures IsValid(p) ==> HasText(p.name) && 0 < p.age < 120 && p.email.Str? && '@' in p.email.chars
  {
  }

  /** The two ages the range admits at its ends, and the two it refuses next to them. */
  lemma AgeBoundaries(p: Person)
    requires HasText(p.name) && p.email.Str? && '@' in p.email.chars
    ensures p.age == 1 || p.age == 119 ==> BaseValid(p)
    ensures p.age == 0 || p.age == 120 ==> !BaseValid(p)
  {
  }

  const ValidMessage: string := "✅ Dados válidos"
  const InvalidMessage: string := "❌ Dados inválidos: nome, idade (1-119) e email são obrigatórios"

  /** `getValidationMessage`: the success text exactly for a valid person. */
  function ValidationMessage(p: Person): (r: string)
    ensures r == ValidMessage <==> IsValid(p)
    ensures r == InvalidMessage <==> !IsValid(p)
  {
    if !IsValid(p) then InvalidMessage else ValidMessage
  }

  /** `getLevel`: under 2 years is junior, under 5 is mid-level, otherwise senior. */
  function Level(years: int32): (r: string)
    ensures r == "Junior" || r == "Pleno" || r == "Senior"
    ensures r == "Junior" <==> years < 2
    ensures r == "Senior" <==> years >= 5
  {
    if years < 2 then "Junior"
    else if years < 5 then "Pleno"
    else "Senior"
  }

  /** The order of the levels. */
  function Rank(level: string): nat
  {
    if level == "Junior" then 0 else if level == "Pleno" then 1 else 2
  }

  /** More experience never gives a lower level. */
  lemma LevelMonotone(y1: int32, y2: int32)
    requires y1 <= y2
    ensures Rank(Level(y1)) <= Rank(Level(y2))
  {
  }

  /** `PessoaRepository`: the saved people in insertion order. */
  datatype Repository = Repository(people: seq<Person>)

  /** Every stored person passed validation when saved. */
  predicate AllValid(repo: Repository)
  {
    forall i :: 0 <= i < |repo.people| ==> IsValid(repo.people[i])
  }

  /** `save`: appends a valid person at the end; an invalid one is only reported. */
  function Save(repo: Repository, p: Person): (r: Repository)
    ensures IsValid(p) ==> r.people == repo.people + [p]
    ensures !IsValid(p) ==> r == repo
    ensures AllValid(repo) ==> AllValid(r)
  {
    if IsValid(p) then Repository(repo.people + [p]) else repo
  }

  /** The result of `findById`: the person, `null`, or the exception thrown
      by the list access. */
  datatype Lookup = Found(person: Person) | NotFound | OutOfRange(index: int)

  /** `findById` as written: compares the `Long` with the size, then indexes
      with `id.intValue() - 1`, which keeps only the low 32 bits of the id. */
  function FindById(repo: Repository, id: int64): (r: Lookup)
    requires |repo.people| < 0x8000_0000 // a Java list's size is an `int`
    ensures 1 <= id <= |repo.people| ==> r == Found(repo.people[id - 1])
    ensures id > |repo.people| ==> r == NotFound
    ensures -0x8000_0000 <= id <= 0 ==> r.OutOfRange?
    ensures r.Found? ==> r.person in repo.people
  {
    if id <= |repo.people| then
      var index := Wrap32(Wrap32(id) as int - 1);
      if 0 <= index < |repo.people| then Found(repo.people[index])
      else OutOfRange(index)
    else
      NotFound
  }

  /** Because of the truncation, a negative id can reach a stored person:
      `1 - 2^32` has the low 32 bits of 1 and yields the first person. */
  lemma FindByIdNegativeAlias(repo: Repository)
    requires 0 < |repo.people| < 0x8000_0000
    ensures FindById(repo, 1 - TwoTo32) == Found(repo.people[0])
  {
    assert Wrap32(1 - TwoTo32) == 1;
  }

  /** `findById` with the evident intent: ids are 1-based positions, a
      non-positive id never names anyone. */
  function FindByIdChecked(repo: Repository, id: int64): (r: Lookup)
    ensures 1 <= id <= |repo.people| ==> r == Found(repo.people[id - 1])
    ensures id > |repo.people| ==> r == NotFound
    ensures id <= 0 ==> r == OutOfRange(id - 1)
  {
    if id > |repo.people| then NotFound
    else if id <= 0 then OutOfRange(id - 1)
    else Found(repo.people[id - 1])
  }

  /** The checked lookup and the one as written agree on every id the
      truncation does not affect, including all ids in `int` range. */
  lemma FindByIdAgreement(repo: Repository, id: int64)
    requires |repo.people| < 0x8000_0000 && -0x8000_0000 <= id
    ensures FindById(repo, id).Found? <==> FindByIdChecked(repo, id).Found?
    ensures FindById(repo, id).Found? ==> FindById(repo, id) == FindByIdChecked(repo, id)
    ensures FindById(repo, id).NotFound? <==> FindByIdChecked(repo, id).NotFound?
  {
  }

  /** Saving then looking up the new size finds the person just saved. */
  lemma SaveThenFind(repo: Repository, p: Person)
    requires IsValid(p) && |repo.people| < 0x7FFF_FFFF
    ensures FindById(Save(repo, p), |repo.people| + 1) == Found(p)
  {
  }

  /** `delete`: only logs; nothing is removed. */
  function Delete(repo: Repository, id: int64): (r: Repository)
    ensures r.people == repo.people
  {
    repo
  }

  /** `findAll`: a fresh list with the stored people in insertion order. */
  function FindAll(repo: Repository): (r: seq<Person>)
    ensures |r| == |repo.people|
    ensures forall i :: 0 <= i < |r| ==> r[i] == repo.people[i]
  {
    repo.people[..]
  }

  /** The stream filter of `findDesenvolvedoresByLinguagem`: a developer whose
      language equals the argument ignoring case. A stored developer always has
      a language, since it was valid when saved. */
  predicate Speaks(p: Person, language: JString)
  {
    p.Developer? && p.language.Str? && EqualsIgnoreCase(p.language.chars, language)
  }

  function DevelopersSpeaking(people: seq<Person>, language: JString): (r: seq<Person>)
    ensures |r| <= |people|
    ensures forall i :: 0 <= i < |r| ==> Speaks(r[i], language) && r[i] in people
    ensures forall p :: p in people && Speaks(p, language) ==> p in r
    decreases |people|
  {
    if |people| == 0 then []
    else
      var rest := DevelopersSpeaking(people[1..], language);
      assert forall p :: p in people[1..] ==> p in people;
      assert people == [people[0]] + people[1..];
      if Speaks(people[0], language) then [people[0]] + rest else rest
  }

  /** The filter keeps insertion order: filtering a concatenation concatenates the filtered parts. */
  lemma {:induction false} DevelopersSpeakingAppend(a: seq<Person>, b: seq<Person>, language: JString)
    ensures DevelopersSpeaking(a + b, language) == DevelopersSpeaking(a, language) + DevelopersSpeaking(b, language)
    decreases |a|
  {
    if |a| == 0 {
      assert a + b == b;
    } else {
      assert (a + b)[1..] == a[1..] + b;
      DevelopersSpeakingAppend(a[1..], b, language);
    }
  }

  /** `findDesenvolvedoresByLinguagem`. */
  function FindDevelopersByLanguage(repo: Repository, language: JString): (r: seq<Person>)
    ensures forall i :: 0 <= i < |r| ==> r[i].Developer? && r[i] in repo.people
    ensures forall p :: p in repo.people ==> (p in r <==> Speaks(p, language))
  {
    DevelopersSpeaking(repo.people, language)
  }

  /** A query after a save equals the query before it, followed by the new
      person when the save stored a matching developer. */
  lemma SaveThenQuery(repo: Repository, p: Person, language: JString)
    ensures FindDevelopersByLanguage(Save(repo, p), language) ==
              FindDevelopersByLanguage(repo, language) +
              (if IsValid(p) && Speaks(p, language) then [p] else [])
  {
    if IsValid(p) {
      DevelopersSpeakingAppend(repo.people, [p], language);
      assert DevelopersSpeaking([p], language) == (if Speaks(p, language) then [p] else []) by {
        assert [p][1..] == [];
      }
    }
  }

  /** Within a repository filled by `save`, no stored developer has a null
      language, so the filter never dereferences `null`. */
  lemma StoredDevelopersHaveLanguage(repo: Repository, i: nat)
    requires AllValid(repo) && i < |repo.people| && repo.people[i].Developer?
    ensures repo.people[i].language.Str?
  {
  }
}
